=== FILE: README.md ===
# Verification-ticket lifecycle of the onboarding bot, in Dafny

The bot (`index.js`) walks a server member through verification. The member
presses a start button and picks a method: ID, cross-server screenshot, or
vouch. The bot then opens a private ticket channel and collects attachments
posted by the member. On Upload, or on the vouch form, it forwards the
evidence to the staff review channel with Approve/Deny buttons. A staff
decision grants the verified roles or sends the denial by direct message. It
then clears the review message and the ticket. Timers delete the ticket 60 s
after a submission and 300 s after it was opened.

All of this state lives in two in-memory tables keyed by user id:

- `userActiveTicket`: user → ticket channel with its `filesCollected`.
- `adminSubmissionMap`: user → the channel and message of the pending review.

This project models those tables and every handler that reads or writes
them. Each handler is a pure transition from the state and an event to the
next state and the platform calls issued, in order. Platform calls are data
(`Effects.Effect`). Their answers are event parameters (`Lifecycle.Platform`):

- whether the review channel could be fetched;
- the review message sent, or none if the send failed;
- the channel created, or none if creation failed;
- whether the decision's target resolved in the server;
- the recent messages of the review channel.

Files:

- `strings.dfy`: JavaScript `split` with a one-character separator, with both round trips to `join`, and `includes` against a reference definition.
- `routing.dfy`: custom-id dispatch of buttons and forms. It includes the `approve_<id>` → `approve_modal_<id>` → `split('_')` chain.
- `registry.dfy`: configuration constants, the two tables, and the "only this user's entries changed" relation.
- `effects.dfy`: platform calls as data.
- `handlers.dfy`: start, method choice, attachment collector, upload, close, vouch, and the two timers.
- `staff.dfy`: the staff buttons and form, the role loop, and the fallback search for a review message.
- `lifecycle.dfy`: the event dispatch, runs of events, lifecycle-wide lemmas, and two concrete traces.

Behaviours of the code a reader might not expect, which the model keeps:

- A ticket does not record the chosen method: index.js:244-245 store only the channel with its `filesCollected`. The method only selects the buttons posted in the ticket channel (`MethodControls`).
- The attachment collector accepts a message posted in any channel, not just the member's ticket channel (`Lifecycle.CollectorIgnoresChannel`).
- Timers are never cancelled. A 300 s timer left over from a closed ticket removes a newer ticket of the same user and reports it as abandoned (`Lifecycle.StaleInactivityTimerClosesNewerTicket`).
- After an upload the reply says the submission was sent, and the 60 s deletion is scheduled, even when the review message could not be sent. Only the submission record depends on the send succeeding.
- Both the upload and the vouch form stop, without scheduling a deletion, when the review channel cannot be fetched.

## Model

| member | source | states |
|---|---|---|
| Strings.Split | index.js:204 | `split('_')` always yields at least one piece and no piece contains the separator |
| Strings.JoinSplit | index.js:204 | joining the pieces of a split with the separator gives back the original id |
| Strings.SplitJoin | index.js:341 | splitting a join of separator-free pieces recovers exactly those pieces |
| Strings.SplitAfterPiece | index.js:341 | a separator-free word followed by `_` is split off as the first piece, and the rest splits independently |
| Strings.Includes | index.js:384 | `includes` is true exactly when the pattern occurs at some index of the text |
| Routing.RouteButton | index.js:114-220 | a button is routed to a staff decision exactly when its id is not a fixed user control and starts with `approve_` or `deny_`; the decision is the matching prefix, and the target is piece 1 of `split('_')`, which always exists |
| Routing.RouteForm | index.js:289-341 | a form is routed to a staff decision exactly when its id is not `vouch_submit` and starts with `approve_modal_` or `deny_modal_`; the target is piece 2 of `split('_')`, which always exists |
| Routing.ButtonIdRoutesToStaff | index.js:139-140 | every review button built for a user is routed as a staff button of the same decision |
| Routing.ButtonTargetExact | index.js:202-204 | the target read from `approve_<id>` / `deny_<id>` is `id` exactly when `id` has no `_` |
| Routing.FormTargetExact | index.js:339-341 | the target read from `approve_modal_<id>` / `deny_modal_<id>` is `id` exactly when `id` has no `_` |
| Routing.StaffChainTargetsSameUser | index.js:202-208 | for an id without `_`, button and form both route to that same user and decision |
| Routing.UnderscoreCut | index.js:204 | for any id whose first `_` is at position k, the review button is routed to the same decision with the first k characters of the id as target |
| Handlers.OnStartVerify | index.js:114-119 | the start button never changes state; it offers the method menu exactly when the user has no ticket, and otherwise rejects |
| Handlers.MethodControls | index.js:250-266 | the ticket channel gets an Upload button exactly for `id`/`cross`, a vouch button exactly for `vouch`, and always a close button last; nothing else, so two controls for a known method and the close button alone otherwise |
| Handlers.OnMethodChosen | index.js:224-285 | with a ticket already open the choice is rejected and nothing changes; otherwise, if creation succeeds, exactly one new ticket for that user with no files, other entries unchanged, and exactly three calls: the reply naming the channel, the instructions with the method's controls, and the 300 s timer; the new channel is not deleted |
| Handlers.ToFileRef | index.js:423 | a record keeps the attachment's url; its name is the attachment's name when present and non-empty, otherwise `file`, so never empty |
| Handlers.CollectedFiles | index.js:421-424 | one record per attachment, in order, with the attachment's url; the name is kept when present and non-empty, and otherwise becomes `file` |
| Handlers.OnMessage | index.js:412-428 | bot authors, users without a ticket and messages without attachments change nothing; otherwise the new records are appended after the old ones and nothing else changes |
| Handlers.Urls | index.js:132 | the review message carries one url per collected file, in collection order |
| Handlers.Record | index.js:147-149 | a submission is recorded for the user, in the review channel, only when a review message was sent, replacing an earlier record; other users are untouched |
| Handlers.OnUpload | index.js:122-163 | without a ticket or with no files it rejects and sends nothing; without the review channel it rejects; otherwise it forwards exactly the collected urls in order with the user's review buttons, records only a sent message, then replies and schedules the 60 s deletion, and makes no other call, so the ticket channel stays until that deletion |
| Handlers.OnClose | index.js:166-175 | with a ticket, removes that user's ticket and deletes its channel, nothing else; without one, rejects and changes nothing |
| Handlers.OnVouchButton | index.js:178-199 | the vouch button opens a form that the form dispatch routes back to the vouch handler, without checking or changing the registry |
| Handlers.OnVouchSubmit | index.js:293-336 | needs no live ticket; without the review channel it rejects; otherwise it makes exactly three calls: it forwards the vouch with review buttons, replies, and schedules the 60 s deletion; it records only a sent message and deletes nothing at once |
| Handlers.OnSelfDestruct | index.js:154-160 | a no-op without a registered ticket; otherwise removes that user's ticket and deletes its channel, nothing else |
| Handlers.OnInactivity | index.js:272-283 | a no-op without a registered ticket; otherwise warns in and deletes that ticket's channel and removes only that ticket, with no other call but the report; staff hear of abandonment exactly when a ticket was removed and the review channel was found |
| Staff.OnStaffButton | index.js:202-220 | a review button changes nothing and opens a form that the form dispatch routes back to the same decision, and to the same target whenever the id has no `_` |
| Staff.GrantRoles | index.js:354-356 | every configured role is attempted in order whatever the platform answers; exactly the accepted ones are granted |
| Staff.MentionsUser | index.js:384 | a message matches when its content is non-empty and contains `<@id>` somewhere; it has no contract of its own and rests on `Strings.Includes` |
| Staff.FirstMention | index.js:384 | finds the first message whose non-empty content contains `<@id>`, or reports that none does |
| Staff.Recent | index.js:383 | the search sees the newest 50 messages, or all of them if there are fewer |
| Staff.FallbackDeletion | index.js:380-387 | deletes at most one message, exactly when some recent message mentions the user, and it is the first such message |
| Staff.SubmissionCleanup | index.js:372-388 | deletes the recorded review message when there is one, and otherwise falls back to the search; at most one message either way |
| Staff.TicketClosing | index.js:391-395 | the decision deletes the target's ticket channel exactly when one is registered, and no other channel |
| Staff.DecisionOutput | index.js:353-398 | the calls of a decision on a resolved member: on approve the verified role attempts first and then the verification log; on deny only the reason by direct message; then the staff log, the review-message cleanup and the ticket deletion, with the reply last; no role, channel or direct message beyond those |
| Staff.OnStaffDecision | index.js:339-400 | an unresolved target stops with no change; otherwise approve attempts every verified role in order and logs, deny sends the reason by direct message, grants no role and writes no verification line for the target (that no other log line is written is `Staff.DecisionCallsOnly`); the staff log is written; the only review message deleted is the recorded one, or else the one found by the fallback search; the only roles added are the verified roles, to the target, on approve; the only channel deleted is the target's ticket channel; the only direct message is the reason to the target, and approve sends none; the target's submission and ticket are removed with nothing else changed |
| Staff.DecisionCallsOnly | index.js:353-369 | on a resolved member the only log lines are the staff log about the target and, on approve only, the target's verification log; every other call is a role grant, a direct message, a deletion or the final reply, so nothing is scheduled or reported |
| Lifecycle.Step | index.js:108-428 | the dispatch of every event onto its handler, in the test order of index.js:111-401 and 412-428; it has no contract of its own, and the Lifecycle lemmas below state what it guarantees |
| Lifecycle.StaffButtonStep | index.js:202-208 | a review button for an id without `_` is dispatched to the staff button of that decision and user |
| Lifecycle.StaffFormStep | index.js:339-341 | a staff form for an id without `_` is dispatched to the decision on that user with the typed reason and the platform's answers |
| Lifecycle.StepTouchesOnlySubject | index.js:108-428 | every event changes the tables only at the acting user, or at the target for a staff decision |
| Lifecycle.TicketCreatedOnlyByMethodChoice | index.js:230-245 | a ticket appears only through the method menu, for a user who had none, in the channel the platform created, with no files |
| Lifecycle.EvidenceOnlyGrows | index.js:412-427 | while a ticket stays registered its channel never changes and its files are only appended to |
| Lifecycle.ChannelDeletedOnlyWithItsTicket | index.js:154-395 | an event deletes a channel only when it is the registered ticket channel of a user whose ticket that same event removes |
| Lifecycle.SubmissionOnlyFromDelivery | index.js:122-149 | a submission record is written only by an upload or vouch of that user whose review message was sent, and it points at that message |
| Lifecycle.StepPreservesInv | index.js:43-44 | submissions always point into the review channel, and no two users share a ticket channel, provided created channels are new |
| Lifecycle.RunPreservesInv | index.js:43-44 | the invariant holds after any run of events from a state that satisfies it |
| Lifecycle.CollectorIgnoresChannel | index.js:412-427 | the collector's result does not depend on the channel the message was posted in |
| Lifecycle.SelfDestructIdempotent | index.js:154-160 | firing the 60 s deletion twice equals firing it once |
| Lifecycle.InactivityIdempotent | index.js:272-283 | firing the 300 s deletion twice equals firing it once, and abandonment is reported only when a ticket was removed |
| Lifecycle.ReviewChainClearsSubmitter | index.js:339-395 | the review button for a submitter opens the form for that submitter, and submitting it clears that submitter's entries only |
| Lifecycle.ApprovedUploadScenario | index.js:114-400 | start, choose `id`, post two files, upload and approve leave both tables empty |
| Lifecycle.ScenarioUpload | index.js:132-148 | in that trace the review message carries both urls in posting order and the submission is recorded |
| Lifecycle.ScenarioApprove | index.js:353-395 | in that trace approval grants both roles first and deletes the review message and the ticket channel |
| Lifecycle.StaleInactivityTimerClosesNewerTicket | index.js:272-283 | a 300 s timer of a closed ticket deletes a newer ticket of the same user and reports it abandoned |

## Left out

- The keep-alive HTTP server (index.js:1-5), client setup and login (index.js:24-31, 431): I/O with no workflow logic.
- The button, menu, form and embed builders, message texts, colours and the channel permission overwrites: platform payloads. The model keeps only the custom ids and the data a message carries.
- The `!setupverify` command (index.js:79-87): it depends on the platform's permission check and touches no table.
- The unused `GESTURES` constant (index.js:40).
- `safeFetchChannel` and `safeDeleteMessage` (index.js:90-105): channel lookups the workflow branches on are event parameters. Message and channel deletions are effects whose failure is ignored, as in the code.
- The fetches of the two log channels (index.js:358, 366): their failure only suppresses a log line, so the log lines are modelled as attempts.
- A failure of the private reply to the requester or of the instruction post in the new ticket channel (index.js:268-269): the top-level handler would catch it after the ticket was registered but before the 300 s timer was scheduled. The model assumes both calls return.
- A failure of the private reply after an upload or a vouch (index.js:151, 324): the 60 s deletion would then never be scheduled while the submission stays recorded. The model assumes the reply returns.
- The top-level error handler (index.js:403-408): modelled only for a failed channel creation, which answers with `UnexpectedError` and changes nothing.
- Form fields that are absent: the forms mark every field required, so the form inputs are always present.
- Real time and concurrent interleaving of handlers: timers fire as explicit events, and the double-submit race on the method menu is outside a sequential model.
- Role-grant outcomes inside the decision transition: it records the attempts only (`Staff.RoleAttempts`), because their outcomes change nothing else. `Staff.GrantRoles` relates the attempts to the platform's answers.

=== FILE: effects.dfy ===
/**
  The platform calls a handler issues, as data. A handler is a pure function
  from the registry state and the event to a `Transition`: the next state and
  the calls made, in order. Each call is an attempt; the platform may refuse
  it, and the bot ignores such refusals unless a handler says otherwise.
 */
module Effects {
  import opened Registry
  import opened Routing

  /** The private replies shown only to the user who acted. */
  datatype Notice =
    | AlreadyHasTicket
    | ChooseMethod
    | UploadFilesFirst
    | AdminChannelMissing
    | SubmittedToStaff
    | VouchForwarded
    | TicketClosed
    | NoTicketToClose
    | ChannelCreated(channel: ChannelId)
    | TargetNotFound
    | DecisionApplied(decision: Decision)
    | UnexpectedError

  /** The two deferred deletions: 60 s after a submission, 300 s after a ticket opens. */
  datatype Timer = SelfDestruct | Inactivity

  /** Lines written to the log channels. */
  datatype LogLine =
    | Verified(user: UserId, info: string)
    | StaffAction(decision: Decision, staff: UserId, user: UserId, text: string)

  datatype Effect =
    | Reply(notice: Notice)
    | ShowForm(formId: string)
    | PostInstructions(channel: ChannelId, controls: seq<string>)
    | ReactReceived
    | SubmitFiles(channel: ChannelId, user: UserId, urls: seq<string>, controls: seq<string>)
    | SubmitVouch(channel: ChannelId, user: UserId, voucher: string, details: string, controls: seq<string>)
    | WarnClosing(channel: ChannelId)
    | ReportAbandoned(channel: ChannelId, user: UserId)
    | DeleteChannel(channel: ChannelId)
    | DeleteMessage(channel: ChannelId, message: MessageId)
    | AddRole(user: UserId, role: RoleId)
    | DirectMessage(user: UserId, reason: string)
    | Log(channel: ChannelId, line: LogLine)
    | Schedule(timer: Timer, user: UserId)

  datatype Transition = Transition(state: State, effects: seq<Effect>)

  /** The Approve/Deny buttons attached to a review message for `user`. */
  function ReviewControls(user: UserId): seq<string> {
    [ButtonId(Approve, user), ButtonId(Deny, user)]
  }
}

=== FILE: handlers.dfy ===
/**
  The user-facing transitions of the ticket lifecycle: the start button, the
  method menu, the attachment collector, the upload and close buttons, the
  vouch form, and the two deferred deletions. Every handler checks the
  registry and then updates it; nothing else is shared between them.
 */
module Handlers {
  import opened Wrappers
  import opened Routing
  import opened Registry
  import opened Effects

  /** The start-verification button (index.js:114-119): never changes the state;
      offers the method menu exactly when the user has no ticket. */
  function OnStartVerify(s: State, user: UserId): (r: Transition)
    ensures r.state == s
    ensures |r.effects| == 1
    ensures r.effects[0] == Reply(ChooseMethod) <==> user !in s.tickets
    ensures r.effects[0] == Reply(AlreadyHasTicket) <==> user in s.tickets
  {
    if user in s.tickets then Transition(s, [Reply(AlreadyHasTicket)])
    else Transition(s, [Reply(ChooseMethod)])
  }

  /** The controls posted in a new ticket channel (index.js:250-266): the method's
      action button, if the choice is known, and always the close button last. */
  function MethodControls(choice: string): (controls: seq<string>)
    ensures |controls| >= 1 && controls[|controls| - 1] == CloseTicketId
    ensures UploadFilesId in controls <==> choice == "id" || choice == "cross"
    ensures VouchButtonId in controls <==> choice == "vouch"
    ensures |controls| == (if choice in {"id", "cross", "vouch"} then 2 else 1)
  {
    if choice == "id" || choice == "cross" then [UploadFilesId, CloseTicketId]
    else if choice == "vouch" then [VouchButtonId, CloseTicketId]
    else [CloseTicketId]
  }

  /** Choosing a method (index.js:224-285). `created` is the channel the platform
      made, or None when channel creation failed and the interaction errored. */
  function OnMethodChosen(s: State, user: UserId, choice: string, created: Option<ChannelId>): (r: Transition)
    ensures user in s.tickets || created.None? ==> r.state == s
    ensures user in s.tickets ==> r.effects == [Reply(AlreadyHasTicket)]
    ensures user !in s.tickets && created.None? ==> r.effects == [Reply(UnexpectedError)]
    ensures user !in s.tickets && created.Some? ==>
              && r.state.tickets.Keys == s.tickets.Keys + {user}
              && r.state.tickets[user] == Ticket(created.value, [])
              && OnlyUserChanged(s, r.state, user)
              && r.state.submissions == s.submissions
    ensures user !in s.tickets && created.Some? ==>
              r.effects == [Reply(ChannelCreated(created.value)),
                            PostInstructions(created.value, MethodControls(choice)),
                            Schedule(Inactivity, user)]
  {
    if user in s.tickets then Transition(s, [Reply(AlreadyHasTicket)])
    else match created
      case None => Transition(s, [Reply(UnexpectedError)])
      case Some(channel) =>
        Transition(State(s.tickets[user := Ticket(channel, [])], s.submissions),
                   [Reply(ChannelCreated(channel)),
                    PostInstructions(channel, MethodControls(choice)),
                    Schedule(Inactivity, user)])
  }

  /** An attachment of a posted message; `name` is None when the platform gives none. */
  datatype Attachment = Attachment(url: string, name: Option<string>)

  const DefaultFileName: string := "file"

  /** `{ url: att.url, name: att.name || 'file' }`: an absent or empty name becomes 'file'. */
  function ToFileRef(a: Attachment): (f: FileRef)
    ensures f.url == a.url && f.name != ""
    ensures a.name.Some? && a.name.value != "" ==> f.name == a.name.value
    ensures a.name.None? || a.name.value == "" ==> f.name == DefaultFileName
  {
    FileRef(a.url, if a.name.Some? && a.name.value != "" then a.name.value else DefaultFileName)
  }

  /** The records made of a message's attachments (index.js:421-424): one per attachment, in order. */
  function CollectedFiles(atts: seq<Attachment>): (files: seq<FileRef>)
    ensures |files| == |atts|
    ensures forall i :: 0 <= i < |atts| ==> files[i].url == atts[i].url
    ensures forall i :: 0 <= i < |atts| ==> files[i].name != ""
    ensures forall i :: 0 <= i < |atts| && atts[i].name.Some? && atts[i].name.value != "" ==>
              files[i].name == atts[i].name.value
    ensures forall i :: 0 <= i < |atts| && (atts[i].name.None? || atts[i].name.value == "") ==>
              files[i].name == DefaultFileName
  {
    if |atts| == 0 then []
    else [ToFileRef(atts[0])] + CollectedFiles(atts[1..])
  }

  /** The attachment collector (index.js:412-428). The channel the message was
      posted in is not consulted, so it is not a parameter. */
  function OnMessage(s: State, author: UserId, isBot: bool, atts: seq<Attachment>): (r: Transition)
    ensures isBot || author !in s.tickets || |atts| == 0 ==> r == Transition(s, [])
    ensures !isBot && author in s.tickets && |atts| > 0 ==>
              var before := s.tickets[author].filesCollected;
              && author in r.state.tickets
              && r.state.tickets[author].channel == s.tickets[author].channel
              && |r.state.tickets[author].filesCollected| == |before| + |atts|
              && r.state.tickets[author].filesCollected[..|before|] == before
              && r.state.tickets[author].filesCollected[|before|..] == CollectedFiles(atts)
              && OnlyUserChanged(s, r.state, author)
              && r.state.tickets.Keys == s.tickets.Keys
              && r.state.submissions == s.submissions
              && r.effects == [ReactReceived]
  {
    if isBot || author !in s.tickets || |atts| == 0 then Transition(s, [])
    else
      var t := s.tickets[author];
      var t' := t.(filesCollected := t.filesCollected + CollectedFiles(atts));
      Transition(s.(tickets := s.tickets[author := t']), [ReactReceived])
  }

  /** The urls of collected files, in collection order (index.js:132). */
  function Urls(files: seq<FileRef>): (urls: seq<string>)
    ensures |urls| == |files|
    ensures forall i :: 0 <= i < |files| ==> urls[i] == files[i].url
  {
    seq(|files|, i requires 0 <= i < |files| => files[i].url)
  }

  /** Records a review message for `user` only when the send produced one,
      replacing any earlier record (index.js:147-149, 322). */
  function Record(subs: map<UserId, Submission>, user: UserId, sent: Option<MessageId>): (subs': map<UserId, Submission>)
    ensures AgreeExcept(subs, subs', user)
    ensures sent.None? ==> subs' == subs
    ensures sent.Some? ==> user in subs' && subs'[user] == Submission(AdminChannelId, sent.value)
  {
    match sent
    case None => subs
    case Some(message) => subs[user := Submission(AdminChannelId, message)]
  }

  /** The user has a ticket holding at least one collected file. */
  predicate HasEvidence(s: State, user: UserId) {
    user in s.tickets && |s.tickets[user].filesCollected| > 0
  }

  /** The upload button (index.js:122-163). `adminFound` says whether the review
      channel could be fetched; `sent` is the review message, None if sending failed. */
  function OnUpload(s: State, user: UserId, adminFound: bool, sent: Option<MessageId>): (r: Transition)
    ensures !HasEvidence(s, user) ==> r == Transition(s, [Reply(UploadFilesFirst)])
    ensures HasEvidence(s, user) && !adminFound ==> r == Transition(s, [Reply(AdminChannelMissing)])
    ensures HasEvidence(s, user) && adminFound ==>
              && r.state.tickets == s.tickets
              && AgreeExcept(s.submissions, r.state.submissions, user)
              && (sent.Some? ==> user in r.state.submissions
                                 && r.state.submissions[user] == Submission(AdminChannelId, sent.value))
              && (sent.None? ==> r.state.submissions == s.submissions)
              && |r.effects| == 3
              && r.effects[0].SubmitFiles?
              && r.effects[0].channel == AdminChannelId
              && r.effects[0].user == user
              && r.effects[0].urls == Urls(s.tickets[user].filesCollected)
              && r.effects[0].controls == ReviewControls(user)
              && r.effects[1..] == [Reply(SubmittedToStaff), Schedule(SelfDestruct, user)]
  {
    if !HasEvidence(s, user) then Transition(s, [Reply(UploadFilesFirst)])
    else if !adminFound then Transition(s, [Reply(AdminChannelMissing)])
    else
      var urls := Urls(s.tickets[user].filesCollected);
      Transition(s.(submissions := Record(s.submissions, user, sent)),
                 [SubmitFiles(AdminChannelId, user, urls, ReviewControls(user)),
                  Reply(SubmittedToStaff),
                  Schedule(SelfDestruct, user)])
  }

  /** The close button (index.js:166-175): removes the user's ticket and nothing else. */
  function OnClose(s: State, user: UserId): (r: Transition)
    ensures user !in s.tickets ==> r == Transition(s, [Reply(NoTicketToClose)])
    ensures user in s.tickets ==>
              && user !in r.state.tickets
              && r.state.tickets.Keys == s.tickets.Keys - {user}
              && OnlyUserChanged(s, r.state, user)
              && r.state.submissions == s.submissions
              && r.effects == [DeleteChannel(s.tickets[user].channel), Reply(TicketClosed)]
  {
    if user !in s.tickets then Transition(s, [Reply(NoTicketToClose)])
    else Transition(s.(tickets := s.tickets - {user}),
                    [DeleteChannel(s.tickets[user].channel), Reply(TicketClosed)])
  }

  /** The vouch button (index.js:178-199): opens the vouch form, with no registry
      check; submitting that form is routed back to the vouch handler (index.js:293). */
  function OnVouchButton(s: State): (r: Transition)
    ensures r.state == s
    ensures r.effects == [ShowForm(VouchFormId)]
    ensures RouteForm(r.effects[0].formId) == VouchForm
  {
    Transition(s, [ShowForm(VouchFormId)])
  }

  /** The vouch form (index.js:293-336). A live ticket is not required; the
      submission is recorded only if the review message was sent. */
  function OnVouchSubmit(s: State, user: UserId, voucher: string, details: string,
                         adminFound: bool, sent: Option<MessageId>): (r: Transition)
    ensures !adminFound ==> r == Transition(s, [Reply(AdminChannelMissing)])
    ensures adminFound ==>
              && r.state.tickets == s.tickets
              && AgreeExcept(s.submissions, r.state.submissions, user)
              && (sent.Some? ==> user in r.state.submissions
                                 && r.state.submissions[user] == Submission(AdminChannelId, sent.value))
              && (sent.None? ==> r.state.submissions == s.submissions)
              && r.effects == [SubmitVouch(AdminChannelId, user, voucher, details, ReviewControls(user)),
                               Reply(VouchForwarded),
                               Schedule(SelfDestruct, user)]
  {
    if !adminFound then Transition(s, [Reply(AdminChannelMissing)])
    else
      Transition(s.(submissions := Record(s.submissions, user, sent)),
                 [SubmitVouch(AdminChannelId, user, voucher, details, ReviewControls(user)),
                  Reply(VouchForwarded),
                  Schedule(SelfDestruct, user)])
  }

  /** The 60 s deletion after an upload or a vouch (index.js:154-160, 327-333):
      removes the ticket if one is still registered, else does nothing. */
  function OnSelfDestruct(s: State, user: UserId): (r: Transition)
    ensures user !in s.tickets ==> r == Transition(s, [])
    ensures user in s.tickets ==>
              && user !in r.state.tickets
              && OnlyUserChanged(s, r.state, user)
              && r.state.submissions == s.submissions
              && r.effects == [DeleteChannel(s.tickets[user].channel)]
  {
    if user !in s.tickets then Transition(s, [])
    else Transition(s.(tickets := s.tickets - {user}), [DeleteChannel(s.tickets[user].channel)])
  }

  /** The 300 s inactivity deletion (index.js:272-283): if a ticket is still
      registered, warns in it, deletes it and tells staff, when the review
      channel can be fetched, that nothing was submitted. */
  function OnInactivity(s: State, user: UserId, adminFound: bool): (r: Transition)
    ensures user !in s.tickets ==> r == Transition(s, [])
    ensures user in s.tickets ==>
              && user !in r.state.tickets
              && OnlyUserChanged(s, r.state, user)
              && r.state.submissions == s.submissions
              && |r.effects| == (if adminFound then 3 else 2)
              && r.effects[..2] == [WarnClosing(s.tickets[user].channel), DeleteChannel(s.tickets[user].channel)]
    ensures ReportAbandoned(AdminChannelId, user) in r.effects <==> user in s.tickets && adminFound
  {
    if user !in s.tickets then Transition(s, [])
    else
      var channel := s.tickets[user].channel;
      var report := if adminFound then [ReportAbandoned(AdminChannelId, user)] else [];
      Transition(s.(tickets := s.tickets - {user}),
                 [WarnClosing(channel), DeleteChannel(channel)] + report)
  }
}

=== FILE: lifecycle.dfy ===
/**
  The whole ticket lifecycle as one state machine: the events the platform
  delivers, the dispatch of index.js:108-428 onto the handlers, runs of
  events, and the properties that hold across every transition.
 */
module Lifecycle {
  import opened Wrappers
  import opened Routing
  import opened Registry
  import opened Effects
  import opened Handlers
  import opened Staff

  /** What the platform answers to the calls one event makes. */
  datatype Platform = Platform(
    adminFound: bool,                           // the review channel could be fetched
    sent: Option<MessageId>,                    // the review message posted, None if sending failed
    created: Option<ChannelId>,                 // the ticket channel created, None if creation failed
    memberFound: bool,                          // the decision's target resolved in the server
    history: Option<seq<AdminMessage>>)         // the review channel's messages, newest first

  /** The values typed into a form; each form reads only its own fields. */
  datatype FormInputs = FormInputs(voucher: string, details: string, staffText: string)

  datatype Event =
    | ButtonPressed(user: UserId, customId: string, answers: Platform)
    | MenuChosen(user: UserId, menuId: string, choice: string, answers: Platform)
    | FormSubmitted(user: UserId, customId: string, inputs: FormInputs, answers: Platform)
    | MessagePosted(user: UserId, isBot: bool, channel: ChannelId, attachments: seq<Attachment>)
    | SelfDestructFired(user: UserId)
    | InactivityFired(user: UserId, answers: Platform)

  /** The dispatch of the interaction and message handlers (index.js:108-428). */
  function Step(s: State, e: Event): Transition {
    match e
    case ButtonPressed(user, cid, p) =>
      (match RouteButton(cid)
       case StartVerify => OnStartVerify(s, user)
       case UploadFiles => OnUpload(s, user, p.adminFound, p.sent)
       case CloseTicket => OnClose(s, user)
       case OpenVouchForm => OnVouchButton(s)
       case StaffButton(d, target) => OnStaffButton(s, d, target)
       case NoButtonRoute => Transition(s, []))
    case MenuChosen(user, menuId, choice, p) =>
      if menuId == MethodMenuId then OnMethodChosen(s, user, choice, p.created)
      else Transition(s, [])
    case FormSubmitted(user, cid, inputs, p) =>
      (match RouteForm(cid)
       case VouchForm => OnVouchSubmit(s, user, inputs.voucher, inputs.details, p.adminFound, p.sent)
       case StaffForm(d, target) => OnStaffDecision(s, user, d, target, inputs.staffText, p.memberFound, p.history)
       case NoFormRoute => Transition(s, []))
    case MessagePosted(user, isBot, _, atts) => OnMessage(s, user, isBot, atts)
    case SelfDestructFired(user) => OnSelfDestruct(s, user)
    case InactivityFired(user, p) => OnInactivity(s, user, p.adminFound)
  }

  /** The user whose registry entries an event may touch: the decision's target
      for a staff form, otherwise the user who acted. */
  function Subject(e: Event): UserId {
    match e
    case FormSubmitted(user, cid, _, _) =>
      (match RouteForm(cid)
       case StaffForm(_, target) => target
       case _ => user)
    case _ => e.user
  }

  /** The state after a sequence of events. */
  function Run(s: State, events: seq<Event>): State
    decreases |events|
  {
    if |events| == 0 then s
    else Run(Step(s, events[0]).state, events[1..])
  }

  /** Every event changes the registry only at its subject's entries. */
  lemma StepTouchesOnlySubject(s: State, e: Event)
    ensures OnlyUserChanged(s, Step(s, e).state, Subject(e))
  {
  }

  /** A ticket appears only when its owner picks a method from the menu and
      none was registered; it starts with no files (index.js:230-245). */
  lemma TicketCreatedOnlyByMethodChoice(s: State, e: Event, user: UserId)
    requires user !in s.tickets && user in Step(s, e).state.tickets
    ensures e.MenuChosen? && e.user == user && e.menuId == MethodMenuId
    ensures e.answers.created == Some(Step(s, e).state.tickets[user].channel)
    ensures Step(s, e).state.tickets[user].filesCollected == []
  {
  }

  /** While a ticket stays registered, its channel is fixed and its files only grow at the end. */
  lemma EvidenceOnlyGrows(s: State, e: Event, user: UserId)
    requires user in s.tickets && user in Step(s, e).state.tickets
    ensures Step(s, e).state.tickets[user].channel == s.tickets[user].channel
    ensures |s.tickets[user].filesCollected| <= |Step(s, e).state.tickets[user].filesCollected|
    ensures Step(s, e).state.tickets[user].filesCollected[..|s.tickets[user].filesCollected|]
              == s.tickets[user].filesCollected
  {
  }

  /** A submission record is written only by an upload or a vouch of that user
      whose review message was sent, and it points at that message. */
  lemma SubmissionOnlyFromDelivery(s: State, e: Event, user: UserId)
    requires user in Step(s, e).state.submissions
    requires user !in s.submissions || s.submissions[user] != Step(s, e).state.submissions[user]
    ensures e.ButtonPressed? || e.FormSubmitted?
    ensures e.ButtonPressed? ==> RouteButton(e.customId) == UploadFiles
    ensures e.FormSubmitted? ==> RouteForm(e.customId) == VouchForm
    ensures e.user == user && e.answers.adminFound
    ensures Step(s, e).state.submissions[user] == Submission(AdminChannelId, e.answers.sent.value)
  {
  }

  /** A channel is deleted only as the registered ticket channel of a user whose
      ticket the same event removes (index.js:157-158, 169-170, 276-277, 330-331, 393-394). */
  lemma ChannelDeletedOnlyWithItsTicket(s: State, e: Event, c: ChannelId)
    ensures DeleteChannel(c) in Step(s, e).effects ==>
              exists u :: u in s.tickets && s.tickets[u].channel == c && u !in Step(s, e).state.tickets
  {
    if DeleteChannel(c) in Step(s, e).effects {
      var u := Subject(e);
      assert u in s.tickets && s.tickets[u].channel == c && u !in Step(s, e).state.tickets;
    }
  }

  /** The registry invariant: every submission points into the review channel,
      and no two users share a ticket channel. */
  ghost predicate Inv(s: State) {
    && (forall u :: u in s.submissions ==> s.submissions[u].channelId == AdminChannelId)
    && (forall u, v :: u in s.tickets && v in s.tickets && u != v ==> s.tickets[u].channel != s.tickets[v].channel)
  }

  /** The platform creates a channel that no registered ticket already uses. */
  ghost predicate FreshChannel(s: State, e: Event) {
    e.MenuChosen? && e.answers.created.Some? ==>
      forall u :: u in s.tickets ==> s.tickets[u].channel != e.answers.created.value
  }

  ghost predicate AllFresh(s: State, events: seq<Event>)
    decreases |events|
  {
    |events| == 0 || (FreshChannel(s, events[0]) && AllFresh(Step(s, events[0]).state, events[1..]))
  }

  /** Every event keeps the invariant, given that a created channel is new. */
  lemma StepPreservesInv(s: State, e: Event)
    requires Inv(s) && FreshChannel(s, e)
    ensures Inv(Step(s, e).state)
  {
  }

  /** Every run from the initial state, with fresh channels, keeps the invariant. */
  lemma {:induction false} RunPreservesInv(s: State, events: seq<Event>)
    requires Inv(s) && AllFresh(s, events)
    ensures Inv(Run(s, events))
    decreases |events|
  {
    if |events| > 0 {
      StepPreservesInv(s, events[0]);
      RunPreservesInv(Step(s, events[0]).state, events[1..]);
    }
  }

  /** The attachment collector ignores the channel a message was posted in (index.js:412-427). */
  lemma CollectorIgnoresChannel(s: State, user: UserId, isBot: bool, c1: ChannelId, c2: ChannelId,
                                atts: seq<Attachment>)
    ensures Step(s, MessagePosted(user, isBot, c1, atts)) == Step(s, MessagePosted(user, isBot, c2, atts))
  {
  }

  /** Firing the 60 s deletion twice is the same as firing it once, and the second does nothing. */
  lemma SelfDestructIdempotent(s: State, user: UserId)
    ensures var once := Step(s, SelfDestructFired(user));
            Step(once.state, SelfDestructFired(user)) == Transition(once.state, [])
  {
  }

  /** Firing the 300 s deletion twice is the same as firing it once, and it
      reports abandonment only when it removed a ticket. */
  lemma InactivityIdempotent(s: State, user: UserId, p: Platform, q: Platform)
    ensures var once := Step(s, InactivityFired(user, p));
            Step(once.state, InactivityFired(user, q)) == Transition(once.state, [])
    ensures ReportAbandoned(AdminChannelId, user) in Step(s, InactivityFired(user, p)).effects ==>
              user in s.tickets && user !in Step(s, InactivityFired(user, p)).state.tickets
  {
  }

  /** A review button for a user id without '_' is dispatched to the staff button of that decision and user. */
  lemma StaffButtonStep(s: State, staff: UserId, d: Decision, target: UserId, p: Platform)
    requires Underscore !in target
    ensures Step(s, ButtonPressed(staff, ButtonId(d, target), p)) == OnStaffButton(s, d, target)
  {
    StaffChainTargetsSameUser(d, target);
  }

  /** A staff form for a user id without '_' is dispatched to the decision on that user. */
  lemma StaffFormStep(s: State, staff: UserId, d: Decision, target: UserId, inputs: FormInputs, p: Platform)
    requires Underscore !in target
    ensures Step(s, FormSubmitted(staff, FormId(d, target), inputs, p))
              == OnStaffDecision(s, staff, d, target, inputs.staffText, p.memberFound, p.history)
  {
    StaffChainTargetsSameUser(d, target);
  }

  /** The review controls of a submission lead, through the staff form, to a
      decision about the submitter, which clears the submitter's entries. */
  lemma ReviewChainClearsSubmitter(s: State, staff: UserId, submitter: UserId, d: Decision,
                                   inputs: FormInputs, p: Platform)
    requires Underscore !in submitter
    requires p.memberFound
    ensures Step(s, ButtonPressed(staff, ButtonId(d, submitter), p)).effects == [ShowForm(FormId(d, submitter))]
    ensures var r := Step(s, FormSubmitted(staff, FormId(d, submitter), inputs, p));
            && submitter !in r.state.tickets
            && submitter !in r.state.submissions
            && OnlyUserChanged(s, r.state, submitter)
  {
    StaffButtonStep(s, staff, d, submitter, p);
    StaffFormStep(s, staff, d, submitter, inputs, p);
  }

  const Alice: UserId := "1001"
  const Staffer: UserId := "2002"

  /** The platform accepts every call of the scenario below. */
  const Accepting: Platform := Platform(true, Some("m1"), Some("c1"), true, None)
  const TwoFiles: seq<Attachment> := [Attachment("u1", Some("id.png")), Attachment("u2", None)]
  const Opened: State := State(map[Alice := Ticket("c1", [])], map[])
  const Collected: State :=
    State(map[Alice := Ticket("c1", [FileRef("u1", "id.png"), FileRef("u2", "file")])], map[])
  const Submitted: State := Collected.(submissions := map[Alice := Submission(AdminChannelId, "m1")])

  lemma ScenarioOpen()
    ensures Step(Initial, ButtonPressed(Alice, StartVerifyId, Accepting)) == Transition(Initial, [Reply(ChooseMethod)])
    ensures Step(Initial, MenuChosen(Alice, MethodMenuId, "id", Accepting)).state == Opened
  {
  }

  lemma ScenarioCollect()
    ensures Step(Opened, MessagePosted(Alice, false, "c1", TwoFiles)).state == Collected
  {
    assert CollectedFiles(TwoFiles) == [FileRef("u1", "id.png"), FileRef("u2", "file")];
  }

  lemma ScenarioUpload()
    ensures var r := Step(Collected, ButtonPressed(Alice, UploadFilesId, Accepting));
            && r.state == Submitted
            && r.effects[0] == SubmitFiles(AdminChannelId, Alice, ["u1", "u2"], ReviewControls(Alice))
  {
  }

  /** The staff form for Alice reaches the decision handler for Alice. */
  lemma ScenarioApproveDispatch()
    ensures Step(Submitted, FormSubmitted(Staffer, FormId(Approve, Alice), FormInputs("", "", "ok"), Accepting))
              == OnStaffDecision(Submitted, Staffer, Approve, Alice, "ok", true, None)
  {
    StaffFormStep(Submitted, Staffer, Approve, Alice, FormInputs("", "", "ok"), Accepting);
  }

  /** A user's cleanup empties a table that held only that user's entry. */
  lemma ForgetOnlyEntry<V>(m: map<UserId, V>, m': map<UserId, V>, user: UserId)
    requires m.Keys <= {user} && user !in m' && AgreeExcept(m, m', user)
    ensures m' == map[]
  {
  }

  lemma ScenarioApprove()
    ensures var r := Step(Submitted, FormSubmitted(Staffer, FormId(Approve, Alice), FormInputs("", "", "ok"), Accepting));
            && r.state == Initial
            && DeleteMessage(AdminChannelId, "m1") in r.effects
            && DeleteChannel("c1") in r.effects
            && r.effects[..2] == [AddRole(Alice, VerifiedRoleIds[0]), AddRole(Alice, VerifiedRoleIds[1])]
  {
    ScenarioApproveDispatch();
    var r := OnStaffDecision(Submitted, Staffer, Approve, Alice, "ok", true, None);
    ForgetOnlyEntry(Submitted.tickets, r.state.tickets, Alice);
    ForgetOnlyEntry(Submitted.submissions, r.state.submissions, Alice);
    assert r.effects[0] == AddRole(Alice, VerifiedRoleIds[0]);
    assert r.effects[1] == AddRole(Alice, VerifiedRoleIds[1]);
  }

  /** The happy path: start, pick ID verification, post two files (one unnamed),
      upload, and approve. The review message carries both urls in order, the
      approval grants both roles and deletes the review message and the
      ticket channel, and both tables end empty. */
  lemma ApprovedUploadScenario()
    ensures Run(Initial, [
              ButtonPressed(Alice, StartVerifyId, Accepting),
              MenuChosen(Alice, MethodMenuId, "id", Accepting),
              MessagePosted(Alice, false, "c1", TwoFiles),
              ButtonPressed(Alice, UploadFilesId, Accepting),
              FormSubmitted(Staffer, FormId(Approve, Alice), FormInputs("", "", "ok"), Accepting)]) == Initial
  {
    var events := [
      ButtonPressed(Alice, StartVerifyId, Accepting),
      MenuChosen(Alice, MethodMenuId, "id", Accepting),
      MessagePosted(Alice, false, "c1", TwoFiles),
      ButtonPressed(Alice, UploadFilesId, Accepting),
      FormSubmitted(Staffer, FormId(Approve, Alice), FormInputs("", "", "ok"), Accepting)];
    ScenarioOpen();
    ScenarioCollect();
    ScenarioUpload();
    ScenarioApprove();
    assert Run(Submitted, events[4..]) == Initial;
    assert Run(Collected, events[3..]) == Initial;
    assert Run(Opened, events[2..]) == Initial;
    assert Run(Initial, events[1..]) == Initial;
  }

  /** Timers are not cancelled: the 300 s timer of a ticket the user closed
      removes a newer ticket of the same user and reports it abandoned
      (index.js:166-174, 272-283). */
  lemma StaleInactivityTimerClosesNewerTicket()
    ensures
      var ok := Platform(true, None, Some("c1"), true, None);
      var again := Platform(true, None, Some("c2"), true, None);
      var s1 := Step(Initial, MenuChosen(Alice, MethodMenuId, "id", ok));
      var s2 := Step(s1.state, ButtonPressed(Alice, CloseTicketId, ok));
      var s3 := Step(s2.state, MenuChosen(Alice, MethodMenuId, "vouch", again));
      var s4 := Step(s3.state, InactivityFired(Alice, ok));
      && Schedule(Inactivity, Alice) in s1.effects
      && s3.state.tickets[Alice].channel == "c2"
      && DeleteChannel("c2") in s4.effects
      && ReportAbandoned(AdminChannelId, Alice) in s4.effects
      && Alice !in s4.state.tickets
  {
  }
}

=== FILE: registry.dfy ===
/**
  The bot's configuration constants and its two in-memory tables
  (index.js:35-44): the open verification ticket of each user and the staff
  review message of each user's pending submission.
 */
module Registry {

  type UserId = string
  type ChannelId = string
  type MessageId = string
  type RoleId = string

  /** Channel where staff review submissions (index.js:35). */
  const AdminChannelId: ChannelId := "1430039834835025920"
  /** Channel where approvals are logged (index.js:36). */
  const VerificationLogId: ChannelId := "1342342913585053705"
  /** Channel where every staff decision is logged (index.js:37). */
  const StaffLogChannelId: ChannelId := "1358627364132884690"
  /** Roles granted, in this order, on approval (index.js:38). */
  const VerifiedRoleIds: seq<RoleId> := ["1358619270472401031", "1369025309600518255"]

  /** One collected attachment: its url and file name. */
  datatype FileRef = FileRef(url: string, name: string)

  /** A user's open ticket: the private channel created for it and the files collected so far. */
  datatype Ticket = Ticket(channel: ChannelId, filesCollected: seq<FileRef>)

  /** Where the staff review message of a submission was posted. */
  datatype Submission = Submission(channelId: ChannelId, messageId: MessageId)

  /** `userActiveTicket` and `adminSubmissionMap`, both keyed by user id. */
  datatype State = State(tickets: map<UserId, Ticket>, submissions: map<UserId, Submission>)

  /** Both tables are empty when the process starts. */
  const Initial: State := State(map[], map[])

  /** `m` and `m'` hold the same entries for every key other than `k`. */
  ghost predicate AgreeExcept<K(!new), V>(m: map<K, V>, m': map<K, V>, k: K) {
    forall x :: x != k ==> (x in m <==> x in m') && (x in m && x in m' ==> m[x] == m'[x])
  }

  /** The state differs from `s` at most in the entries of `user`. */
  ghost predicate OnlyUserChanged(s: State, s': State, user: UserId) {
    AgreeExcept(s.tickets, s'.tickets, user) && AgreeExcept(s.submissions, s'.submissions, user)
  }
}

=== FILE: routing.dfy ===
/**
  Custom-id routing of the bot's interactive controls (index.js:114-220 for
  buttons, 293 and 339-341 for forms). Staff review controls carry the
  submitting user's id in their custom id: the Approve/Deny button is
  `approve_<id>` / `deny_<id>`, the form it opens is `approve_modal_<id>` /
  `deny_modal_<id>`, and the id is read back with `split('_')`.
 */
module Routing {
  import opened Wrappers
  import opened Strings

  const Underscore: char := '_'

  /** Custom ids of the controls the bot posts for the user (index.js:56, 253, 261, 266, 180). */
  const StartVerifyId: string := "start_verify"
  const UploadFilesId: string := "upload_files"
  const CloseTicketId: string := "close_ticket"
  const VouchButtonId: string := "vouch_modal"
  const VouchFormId: string := "vouch_submit"
  const MethodMenuId: string := "verification_type"

  datatype Decision = Approve | Deny

  function ButtonPrefix(d: Decision): string {
    match d
    case Approve => "approve_"
    case Deny => "deny_"
  }

  function FormPrefix(d: Decision): string {
    match d
    case Approve => "approve_modal_"
    case Deny => "deny_modal_"
  }

  /** The custom id of a staff review button for `user` (index.js:139-140, 314-315). */
  function ButtonId(d: Decision, user: string): string {
    ButtonPrefix(d) + user
  }

  /** The custom id of the staff form opened by a review button (index.js:208). */
  function FormId(d: Decision, user: string): string {
    FormPrefix(d) + user
  }

  /** `cid.split('_')[i]`, with None standing for JavaScript's `undefined`. */
  function Part(cid: string, i: nat): Option<string> {
    var parts := Split(cid, Underscore);
    if i < |parts| then Some(parts[i]) else None
  }

  /** Splitting `word + "_" + rest` on '_' yields `word` and then the pieces of `rest`. */
  lemma SplitWord(cid: string, word: string)
    requires Underscore !in word
    requires word + [Underscore] <= cid
    ensures Split(cid, Underscore) == [word] + Split(cid[|word| + 1..], Underscore)
  {
    assert cid == word + [Underscore] + cid[|word| + 1..];
    SplitAfterPiece(word, cid[|word| + 1..], Underscore);
  }

  /** An id that starts with a staff button prefix has a second piece. */
  lemma ButtonIdHasTarget(cid: string, d: Decision)
    requires ButtonPrefix(d) <= cid
    ensures Part(cid, 1).Some?
    ensures Part(cid, 1).value == Split(cid[|ButtonPrefix(d)|..], Underscore)[0]
  {
    var word := if d == Approve then "approve" else "deny";
    assert ButtonPrefix(d) == word + [Underscore];
    SplitWord(cid, word);
  }

  /** An id that starts with a staff form prefix has a third piece. */
  lemma FormIdHasTarget(cid: string, d: Decision)
    requires FormPrefix(d) <= cid
    ensures Part(cid, 2).Some?
    ensures Part(cid, 2).value == Split(cid[|FormPrefix(d)|..], Underscore)[0]
  {
    var word := if d == Approve then "approve" else "deny";
    assert FormPrefix(d) == word + [Underscore] + "modal" + [Underscore];
    var tail := cid[|word| + 1..];
    SplitWord(cid, word);
    assert "modal" + [Underscore] <= tail;
    SplitWord(tail, "modal");
    assert tail[6..] == cid[|FormPrefix(d)|..];
  }

  /** What a button press asks for, decided by its custom id. */
  datatype ButtonRoute =
    | StartVerify
    | UploadFiles
    | CloseTicket
    | OpenVouchForm
    | StaffButton(decision: Decision, target: string)
    | NoButtonRoute

  /** The button dispatch of index.js:114-220, in its order of tests. */
  function RouteButton(cid: string): (r: ButtonRoute)
    ensures r.StaffButton? <==>
              cid !in [StartVerifyId, UploadFilesId, CloseTicketId, VouchButtonId]
              && (ButtonPrefix(Approve) <= cid || ButtonPrefix(Deny) <= cid)
    ensures r.StaffButton? ==> ButtonPrefix(r.decision) <= cid && Part(cid, 1) == Some(r.target)
  {
    if cid == StartVerifyId then StartVerify
    else if cid == UploadFilesId then UploadFiles
    else if cid == CloseTicketId then CloseTicket
    else if cid == VouchButtonId then OpenVouchForm
    else if ButtonPrefix(Approve) <= cid || ButtonPrefix(Deny) <= cid then
      var d := if ButtonPrefix(Approve) <= cid then Approve else Deny;
      ButtonIdHasTarget(cid, d);
      StaffButton(d, Part(cid, 1).value)
    else NoButtonRoute
  }

  /** What a form submission asks for, decided by its custom id. */
  datatype FormRoute =
    | VouchForm
    | StaffForm(decision: Decision, target: string)
    | NoFormRoute

  /** The form dispatch of index.js:293 and 339-341. */
  function RouteForm(cid: string): (r: FormRoute)
    ensures r.StaffForm? <==>
              cid != VouchFormId
              && (FormPrefix(Approve) <= cid || FormPrefix(Deny) <= cid)
    ensures r.StaffForm? ==> FormPrefix(r.decision) <= cid && Part(cid, 2) == Some(r.target)
  {
    if cid == VouchFormId then VouchForm
    else if FormPrefix(Approve) <= cid || FormPrefix(Deny) <= cid then
      var d := if FormPrefix(Approve) <= cid then Approve else Deny;
      FormIdHasTarget(cid, d);
      StaffForm(d, Part(cid, 2).value)
    else NoFormRoute
  }

  /** The prefixes of the two decisions exclude each other, and no fixed user control starts with one. */
  lemma PrefixesDistinct(d: Decision, user: string)
    ensures ButtonId(d, user) !in [StartVerifyId, UploadFilesId, CloseTicketId, VouchButtonId]
    ensures !(ButtonPrefix(if d == Approve then Deny else Approve) <= ButtonId(d, user))
    ensures FormId(d, user) != VouchFormId
    ensures !(FormPrefix(if d == Approve then Deny else Approve) <= FormId(d, user))
  {
    assert ButtonId(d, user)[0] == FormId(d, user)[0] == (if d == Approve then 'a' else 'd');
  }

  /** A review button for `user` is routed to a staff button of the same decision, whatever `user` is. */
  lemma ButtonIdRoutesToStaff(d: Decision, user: string)
    ensures RouteButton(ButtonId(d, user)).StaffButton?
    ensures RouteButton(ButtonId(d, user)).decision == d
  {
    PrefixesDistinct(d, user);
  }

  /** The staff button for `user` targets `user` exactly when the id contains no '_'. */
  lemma {:induction false} ButtonTargetExact(d: Decision, user: string)
    ensures RouteButton(ButtonId(d, user)).StaffButton?
    ensures RouteButton(ButtonId(d, user)).target == user <==> Underscore !in user
  {
    var cid := ButtonId(d, user);
    ButtonIdRoutesToStaff(d, user);
    ButtonIdHasTarget(cid, d);
    assert cid[|ButtonPrefix(d)|..] == user;
    FirstPieceIsWhole(user);
  }

  /** The staff form for `user` targets `user` exactly when the id contains no '_'. */
  lemma {:induction false} FormTargetExact(d: Decision, user: string)
    ensures RouteForm(FormId(d, user)).StaffForm?
    ensures RouteForm(FormId(d, user)).decision == d
    ensures RouteForm(FormId(d, user)).target == user <==> Underscore !in user
  {
    var cid := FormId(d, user);
    PrefixesDistinct(d, user);
    FormIdHasTarget(cid, d);
    assert cid[|FormPrefix(d)|..] == user;
    FirstPieceIsWhole(user);
  }

  /** The first piece of a split is the whole string exactly when it has no separator. */
  lemma {:induction false} FirstPieceIsWhole(user: string)
    ensures Split(user, Underscore)[0] == user <==> Underscore !in user
  {
    if Underscore !in user {
      SplitSeparatorFree(user, Underscore);
    } else {
      var first := Split(user, Underscore)[0];
      assert Underscore !in first;
      assert first != user;
    }
  }

  /** For an id without '_', the button -> form -> decision chain ends at the same user. */
  lemma StaffChainTargetsSameUser(d: Decision, user: string)
    requires Underscore !in user
    ensures RouteButton(ButtonId(d, user)) == StaffButton(d, user)
    ensures RouteForm(FormId(d, user)) == StaffForm(d, user)
  {
    ButtonTargetExact(d, user);
    FormTargetExact(d, user);
  }

  /** A user id containing '_' is cut at its first '_' by the staff routing:
      the button is routed to the piece before it. */
  lemma UnderscoreCut(d: Decision, user: string, k: nat)
    requires k < |user| && user[k] == Underscore && Underscore !in user[..k]
    ensures RouteButton(ButtonId(d, user)) == StaffButton(d, user[..k])
  {
    var cid := ButtonId(d, user);
    ButtonIdRoutesToStaff(d, user);
    ButtonIdHasTarget(cid, d);
    assert cid[|ButtonPrefix(d)|..] == user;
    assert user == user[..k] + [Underscore] + user[k + 1..];
    SplitAfterPiece(user[..k], user[k + 1..], Underscore);
  }
}

=== FILE: staff.dfy ===
/**
  The staff side of the lifecycle (index.js:202-220 and 339-400): a review
  button opens a one-field form, and submitting the form applies the
  decision and cleans up the user's registry entries.
 */
module Staff {
  import opened Wrappers
  import opened Strings
  import opened Routing
  import opened Registry
  import opened Effects

  /** A review button opens the staff form for the same decision and target
      (index.js:202-220); submitting that form is routed back to this decision,
      and to this target when its id has no '_' (index.js:339-341). */
  function OnStaffButton(s: State, d: Decision, target: UserId): (r: Transition)
    ensures r.state == s
    ensures r.effects == [ShowForm(FormId(d, target))]
    ensures RouteForm(r.effects[0].formId).StaffForm?
    ensures RouteForm(r.effects[0].formId).decision == d
    ensures Underscore !in target ==> RouteForm(r.effects[0].formId) == StaffForm(d, target)
  {
    FormTargetExact(d, target);
    Transition(s, [ShowForm(FormId(d, target))])
  }

  /** The attempts to add each verified role, in order (index.js:354-356). */
  function RoleAttempts(user: UserId, roles: seq<RoleId>): (attempts: seq<Effect>)
    ensures |attempts| == |roles|
    ensures forall i :: 0 <= i < |roles| ==> attempts[i] == AddRole(user, roles[i])
  {
    seq(|roles|, i requires 0 <= i < |roles| => AddRole(user, roles[i]))
  }

  /** The role loop of index.js:354-356 run against the platform's answers:
      `accepted[i]` says whether adding `roles[i]` succeeded. A refusal is
      swallowed and the loop goes on, so every role is attempted, in order, and
      exactly the accepted ones are granted. */
  method GrantRoles(user: UserId, roles: seq<RoleId>, accepted: seq<bool>)
      returns (attempts: seq<Effect>, granted: seq<RoleId>)
    requires |accepted| == |roles|
    ensures attempts == RoleAttempts(user, roles)
    ensures forall i :: 0 <= i < |roles| && accepted[i] ==> roles[i] in granted
    ensures forall r :: r in granted ==> exists i :: 0 <= i < |roles| && accepted[i] && roles[i] == r
    ensures |granted| <= |roles|
  {
    attempts := [];
    granted := [];
    var i := 0;
    while i < |roles|
      invariant 0 <= i <= |roles|
      invariant attempts == RoleAttempts(user, roles[..i])
      invariant forall k :: 0 <= k < i && accepted[k] ==> roles[k] in granted
      invariant forall r :: r in granted ==> exists k :: 0 <= k < i && accepted[k] && roles[k] == r
      invariant |granted| <= i
    {
      attempts := attempts + [AddRole(user, roles[i])];
      if accepted[i] {
        granted := granted + [roles[i]];
      }
      i := i + 1;
    }
    assert roles[..i] == roles;
  }

  /** A message in the review channel as returned by a recent-messages fetch. */
  datatype AdminMessage = AdminMessage(id: MessageId, content: string)

  /** How many recent messages the fallback search fetches (index.js:383). */
  const FetchLimit: nat := 50

  /** `<@id>`, the mention of a user. */
  function Mention(user: UserId): string {
    "<@" + user + ">"
  }

  /** `m.content && m.content.includes(`<@id>`)` (index.js:384). */
  predicate MentionsUser(m: AdminMessage, user: UserId) {
    |m.content| > 0 && Includes(m.content, Mention(user))
  }

  /** The index of the first message that mentions `user`, if any (the `find` of index.js:384). */
  function FirstMention(msgs: seq<AdminMessage>, user: UserId): (r: Option<nat>)
    ensures r.Some? ==> r.value < |msgs| && MentionsUser(msgs[r.value], user)
    ensures r.Some? ==> forall k :: 0 <= k < r.value ==> !MentionsUser(msgs[k], user)
    ensures r.None? <==> forall k :: 0 <= k < |msgs| ==> !MentionsUser(msgs[k], user)
  {
    if |msgs| == 0 then None
    else if MentionsUser(msgs[0], user) then Some(0)
    else match FirstMention(msgs[1..], user)
      case None => None
      case Some(k) => Some(k + 1)
  }

  /** The messages a fetch with `limit: 50` returns, newest first. */
  function Recent(history: seq<AdminMessage>): (recent: seq<AdminMessage>)
    ensures |recent| <= FetchLimit && |recent| <= |history|
    ensures recent == history[..|recent|]
    ensures |recent| == FetchLimit || recent == history
  {
    if |history| <= FetchLimit then history else history[..FetchLimit]
  }

  /** The fallback cleanup when no review message is recorded (index.js:380-387).
      `history` is the review channel's messages newest first, or None when the
      channel or its messages could not be fetched. Deletes at most one
      message: the first recent one that mentions the user. */
  function FallbackDeletion(history: Option<seq<AdminMessage>>, user: UserId): (deletes: seq<Effect>)
    ensures |deletes| <= 1
    ensures history.None? ==> deletes == []
    ensures history.Some? ==>
              var recent := Recent(history.value);
              && (|deletes| == 1 <==> exists k :: 0 <= k < |recent| && MentionsUser(recent[k], user))
              && (|deletes| == 1 ==>
                    exists k :: 0 <= k < |recent| && MentionsUser(recent[k], user)
                      && (forall j :: 0 <= j < k ==> !MentionsUser(recent[j], user))
                      && deletes[0] == DeleteMessage(AdminChannelId, recent[k].id))
  {
    match history
    case None => []
    case Some(h) =>
      var recent := Recent(h);
      match FirstMention(recent, user)
      case None => []
      case Some(k) => [DeleteMessage(AdminChannelId, recent[k].id)]
  }

  /** Removing the review message: the recorded one if any, else by the fallback search (index.js:372-388). */
  function SubmissionCleanup(s: State, user: UserId, history: Option<seq<AdminMessage>>): (deletes: seq<Effect>)
    ensures |deletes| <= 1
    ensures forall e :: e in deletes ==> e.DeleteMessage?
    ensures user in s.submissions ==>
              deletes == [DeleteMessage(s.submissions[user].channelId, s.submissions[user].messageId)]
    ensures user !in s.submissions ==> deletes == FallbackDeletion(history, user)
  {
    if user in s.submissions then
      [DeleteMessage(s.submissions[user].channelId, s.submissions[user].messageId)]
    else FallbackDeletion(history, user)
  }

  /** The effects a decision has on the member before the log line (index.js:353-363). */
  function DecisionEffects(d: Decision, target: UserId, text: string): (effects: seq<Effect>)
    ensures d == Approve ==>
              && |effects| == |VerifiedRoleIds| + 1
              && (forall i :: 0 <= i < |VerifiedRoleIds| ==> effects[i] == AddRole(target, VerifiedRoleIds[i]))
              && effects[|VerifiedRoleIds|] == Log(VerificationLogId, Verified(target, text))
    ensures d == Deny ==> effects == [DirectMessage(target, text)]
    ensures forall e :: e in effects ==> !e.DeleteMessage? && !e.DeleteChannel?
    ensures d == Approve ==> forall e :: e in effects ==> !e.DirectMessage?
    ensures forall e :: e in effects && e.AddRole? ==> d == Approve && e.user == target && e.role in VerifiedRoleIds
    ensures forall e :: e in effects && e.DirectMessage? ==> e == DirectMessage(target, text)
  {
    match d
    case Approve => RoleAttempts(target, VerifiedRoleIds) + [Log(VerificationLogId, Verified(target, text))]
    case Deny => [DirectMessage(target, text)]
  }

  /** The registry without the entries of `user` (index.js:377, 394). */
  function Forget(s: State, user: UserId): (s': State)
    ensures user !in s'.tickets && user !in s'.submissions
    ensures OnlyUserChanged(s, s', user)
  {
    State(s.tickets - {user}, s.submissions - {user})
  }

  /** Where each part of a decision's effects ends up in their concatenation. */
  lemma DecisionLayout(before: seq<Effect>, log: Effect, cleanup: seq<Effect>, close: seq<Effect>, reply: Effect)
    ensures var all := before + [log] + cleanup + close + [reply];
            && all[..|before|] == before
            && log in all
            && (forall e :: e in cleanup || e in close ==> e in all)
            && (forall e :: e in before ==> e in all)
            && all[|all| - 1] == reply
            && (forall e :: e in all ==> e in before || e == log || e in cleanup || e in close || e == reply)
  {
  }

  /** Which part of a decision's effects each kind of platform call can come from. */
  lemma DecisionKinds(before: seq<Effect>, log: Effect, cleanup: seq<Effect>, close: seq<Effect>, reply: Effect)
    requires forall e :: e in before ==> !e.DeleteMessage? && !e.DeleteChannel?
    requires log.Log? && reply.Reply?
    requires forall e :: e in cleanup ==> e.DeleteMessage?
    requires forall e :: e in close ==> e.DeleteChannel?
    ensures var all := before + [log] + cleanup + close + [reply];
            && (forall e :: e in all && e.DeleteMessage? ==> e in cleanup)
            && (forall e :: e in all && e.DeleteChannel? ==> e in close)
            && (forall e :: e in all && (e.AddRole? || e.DirectMessage?) ==> e in before)
            && (forall e :: e in all && e.Log? ==> e in before || e == log)
  {
    DecisionLayout(before, log, cleanup, close, reply);
  }

  /** The deletion of the target's ticket channel, if one is registered (index.js:391-395). */
  function TicketClosing(s: State, target: UserId): (close: seq<Effect>)
    ensures forall e :: e in close ==> e.DeleteChannel?
    ensures target in s.tickets ==> close == [DeleteChannel(s.tickets[target].channel)]
    ensures target !in s.tickets ==> close == []
  {
    if target in s.tickets then [DeleteChannel(s.tickets[target].channel)] else []
  }

  /** The platform calls of a decision on a resolved member (index.js:353-398), in order. */
  function DecisionOutput(s: State, staff: UserId, d: Decision, target: UserId, text: string,
                          history: Option<seq<AdminMessage>>): (effects: seq<Effect>)
    ensures Log(StaffLogChannelId, StaffAction(d, staff, target, text)) in effects
    ensures target in s.tickets ==> DeleteChannel(s.tickets[target].channel) in effects
    ensures target !in s.tickets ==> forall e :: e in effects ==> !e.DeleteChannel?
    ensures forall e :: e in SubmissionCleanup(s, target, history) ==> e in effects
    ensures forall e :: e in effects && e.DeleteMessage? ==> e in SubmissionCleanup(s, target, history)
    ensures forall e :: e in effects && e.AddRole? ==> d == Approve && e.user == target && e.role in VerifiedRoleIds
    ensures forall e :: e in effects && e.DeleteChannel? ==>
              target in s.tickets && e == DeleteChannel(s.tickets[target].channel)
    ensures forall e :: e in effects && e.DirectMessage? ==> e == DirectMessage(target, text)
    ensures effects[|effects| - 1] == Reply(DecisionApplied(d))
    ensures d == Approve ==>
              && |effects| > |VerifiedRoleIds|
              && (forall i :: 0 <= i < |VerifiedRoleIds| ==> effects[i] == AddRole(target, VerifiedRoleIds[i]))
              && Log(VerificationLogId, Verified(target, text)) in effects
              && (forall e :: e in effects ==> !e.DirectMessage?)
    ensures d == Deny ==>
              && DirectMessage(target, text) in effects
              && (forall e :: e in effects ==> !e.AddRole? && e != Log(VerificationLogId, Verified(target, text)))
  {
    var before := DecisionEffects(d, target, text);
    var staffLog := Log(StaffLogChannelId, StaffAction(d, staff, target, text));
    var cleanup := SubmissionCleanup(s, target, history);
    var close := TicketClosing(s, target);
    DecisionLayout(before, staffLog, cleanup, close, Reply(DecisionApplied(d)));
    DecisionKinds(before, staffLog, cleanup, close, Reply(DecisionApplied(d)));
    before + [staffLog] + cleanup + close + [Reply(DecisionApplied(d))]
  }

  /** The staff form (index.js:339-400). `memberFound` says whether the target
      could be resolved in the server; `history` serves the fallback search. */
  function OnStaffDecision(s: State, staff: UserId, d: Decision, target: UserId, text: string,
                           memberFound: bool, history: Option<seq<AdminMessage>>): (r: Transition)
    ensures !memberFound ==> r == Transition(s, [Reply(TargetNotFound)])
    ensures memberFound ==>
              && target !in r.state.tickets
              && target !in r.state.submissions
              && OnlyUserChanged(s, r.state, target)
              && Log(StaffLogChannelId, StaffAction(d, staff, target, text)) in r.effects
              && (target in s.tickets ==> DeleteChannel(s.tickets[target].channel) in r.effects)
              && r.effects[|r.effects| - 1] == Reply(DecisionApplied(d))
    ensures memberFound ==>
              && (forall e :: e in SubmissionCleanup(s, target, history) ==> e in r.effects)
              && (forall e :: e in r.effects && e.DeleteMessage? ==> e in SubmissionCleanup(s, target, history))
    ensures memberFound ==>
              forall e :: e in r.effects && e.AddRole? ==> d == Approve && e.user == target && e.role in VerifiedRoleIds
    ensures memberFound ==>
              forall e :: e in r.effects && e.DeleteChannel? ==>
                target in s.tickets && e == DeleteChannel(s.tickets[target].channel)
    ensures memberFound ==> forall e :: e in r.effects && e.DirectMessage? ==> e == DirectMessage(target, text)
    ensures memberFound && d == Approve ==> forall e :: e in r.effects ==> !e.DirectMessage?
    ensures memberFound && d == Approve ==>
              && |r.effects| > |VerifiedRoleIds|
              && (forall i :: 0 <= i < |VerifiedRoleIds| ==> r.effects[i] == AddRole(target, VerifiedRoleIds[i]))
              && Log(VerificationLogId, Verified(target, text)) in r.effects
    ensures memberFound && d == Deny ==>
              && DirectMessage(target, text) in r.effects
              && (forall e :: e in r.effects ==> !e.AddRole? && e != Log(VerificationLogId, Verified(target, text)))
  {
    if !memberFound then Transition(s, [Reply(TargetNotFound)])
    else Transition(Forget(s, target), DecisionOutput(s, staff, d, target, text, history))
  }

  /** A decision on a resolved member makes only its own calls: the log lines
      written are the staff log about the target and, on approve, the target's
      verification log (index.js:353-369), and nothing is scheduled or reported. */
  lemma DecisionCallsOnly(s: State, staff: UserId, d: Decision, target: UserId, text: string,
                          history: Option<seq<AdminMessage>>)
    ensures var r := OnStaffDecision(s, staff, d, target, text, true, history);
            && (forall e :: e in r.effects && e.Log? ==>
                  e == Log(StaffLogChannelId, StaffAction(d, staff, target, text))
                  || (d == Approve && e == Log(VerificationLogId, Verified(target, text))))
            && (forall e :: e in r.effects ==>
                  e.AddRole? || e.DirectMessage? || e.Log? || e.DeleteMessage? || e.DeleteChannel?
                  || e == Reply(DecisionApplied(d)))
  {
    var before := DecisionEffects(d, target, text);
    var staffLog := Log(StaffLogChannelId, StaffAction(d, staff, target, text));
    var cleanup := SubmissionCleanup(s, target, history);
    var close := TicketClosing(s, target);
    DecisionLayout(before, staffLog, cleanup, close, Reply(DecisionApplied(d)));
    assert forall e :: e in before ==>
             e.AddRole? || e.DirectMessage? || (d == Approve && e == Log(VerificationLogId, Verified(target, text)));
  }
}

=== FILE: strings.dfy ===
/**
  The two pieces of JavaScript string behaviour the bot relies on:
  `String.prototype.split` with a one-character separator (used to read the
  target user back out of a staff control's custom id) and
  `String.prototype.includes` (used by the fallback search for a mention).
 */
module Strings {

  /** `s.split(sep)`: the separator-free pieces between the occurrences of
      `sep`, empty pieces included, so `k` separators give `k + 1` pieces. */
  function Split(s: string, sep: char): (parts: seq<string>)
    ensures |parts| >= 1
    ensures forall i :: 0 <= i < |parts| ==> sep !in parts[i]
    decreases |s|
  {
    if |s| == 0 then [""]
    else
      var rest := Split(s[1..], sep);
      if s[0] == sep then [""] + rest
      else [[s[0]] + rest[0]] + rest[1..]
  }

  /** `parts.join(sep)`, the inverse of `Split`. */
  function Join(parts: seq<string>, sep: char): string
    requires |parts| >= 1
  {
    if |parts| == 1 then parts[0]
    else parts[0] + [sep] + Join(parts[1..], sep)
  }

  /** Joining the pieces of a split gives back the original string. */
  lemma {:induction false} JoinSplit(s: string, sep: char)
    ensures Join(Split(s, sep), sep) == s
    decreases |s|
  {
    if |s| > 0 {
      var rest := Split(s[1..], sep);
      JoinSplit(s[1..], sep);
      assert Join(rest, sep) == s[1..];
      if s[0] == sep {
        assert ([""] + rest)[1..] == rest;
      } else {
        var parts := [[s[0]] + rest[0]] + rest[1..];
        if |rest| == 1 {
          assert parts == [[s[0]] + rest[0]];
        } else {
          assert parts[1..] == rest[1..];
          assert Join(rest, sep) == rest[0] + [sep] + Join(rest[1..], sep);
          assert s == [s[0]] + s[1..];
        }
      }
    }
  }

  /** A string with no separator splits into itself alone. */
  lemma {:induction false} SplitSeparatorFree(a: string, sep: char)
    requires sep !in a
    ensures Split(a, sep) == [a]
    decreases |a|
  {
    if |a| > 0 {
      SplitSeparatorFree(a[1..], sep);
      assert [a[0]] + a[1..] == a;
    }
  }

  /** A separator-free piece followed by a separator is split off as the first part. */
  lemma {:induction false} SplitAfterPiece(a: string, b: string, sep: char)
    requires sep !in a
    ensures Split(a + [sep] + b, sep) == [a] + Split(b, sep)
    decreases |a|
  {
    var s := a + [sep] + b;
    if |a| == 0 {
      assert s[0] == sep && s[1..] == b;
    } else {
      assert s[0] == a[0] && s[0] != sep;
      assert s[1..] == a[1..] + [sep] + b;
      SplitAfterPiece(a[1..], b, sep);
      assert [a[0]] + a[1..] == a;
    }
  }

  /** Splitting a join of separator-free pieces recovers exactly those pieces. */
  lemma {:induction false} SplitJoin(parts: seq<string>, sep: char)
    requires |parts| >= 1
    requires forall i :: 0 <= i < |parts| ==> sep !in parts[i]
    ensures Split(Join(parts, sep), sep) == parts
    decreases |parts|
  {
    if |parts| == 1 {
      SplitSeparatorFree(parts[0], sep);
    } else {
      SplitJoin(parts[1..], sep);
      SplitAfterPiece(parts[0], Join(parts[1..], sep), sep);
      assert [parts[0]] + parts[1..] == parts;
    }
  }

  /** `pat` occurs in `s` starting at index `i`. */
  ghost predicate OccursAt(s: string, pat: string, i: nat) {
    i + |pat| <= |s| && s[i..i + |pat|] == pat
  }

  /** Searches for `pat` at index `i` or later. */
  function IncludesFrom(s: string, pat: string, i: nat): (b: bool)
    ensures b <==> exists j: nat :: i <= j && OccursAt(s, pat, j)
    decreases |s| - i
  {
    if i + |pat| > |s| then false
    else if s[i..i + |pat|] == pat then assert OccursAt(s, pat, i); true
    else IncludesFrom(s, pat, i + 1)
  }

  /** `s.includes(pat)`. */
  function Includes(s: string, pat: string): (b: bool)
    ensures b <==> exists j: nat :: OccursAt(s, pat, j)
  {
    IncludesFrom(s, pat, 0)
  }
}

=== FILE: wrappers.dfy ===
/** The optional value used wherever the bot's JavaScript may see `null` or `undefined`. */
module Wrappers {

  datatype Option<+T> = None | Some(value: T)
}
